=== FILE: README.md ===
# Crafting Skill Editor: a Dafny model

This project models the controller logic of the Crafting Skill Editor. The editor is an in-game panel for a
Unity game mod. It lists the local player's crafting skills, meaning the progression values whose class name
starts with `crafting` in any letter case. It lets the user type a new level per skill, highlights rows whose
pending text differs from the applied level, and writes levels back to the player. A row can be applied on
its own or in bulk (Max All, Zero All, Reset All, Apply All). A search box filters rows by their formatted
name. A per-frame driver opens and closes the panel on a configurable key, F8 by default.

The model has nine modules, one file each:

- `wrappers.dfy`: `Option`, `Result` and `Fault`. `Fault` stands for the two exceptions the model raises:
  an index out of range in `Pretty`, and a null reference in `ApplyRow`.
- `ascii.dfy`: ordinal case-insensitive comparison and `IndexOf`, over ASCII letters.
- `numbers.dfy`: 32-bit integers, `int.ToString`, `int.TryParse` and `Mathf.Clamp`.
- `names.dfy`: `Pretty`, the display-name formatter.
- `host.dfy`: the player's progression values, `GetProgressionValue(name)` and writing `.Level`.
- `rows.dfy`: a row's state and `UpdateDelta` (tint and Apply caption).
- `editor.dfy`:
  - `Refresh`, `FilterRows` and `ApplyRow`;
  - the four bulk actions;
  - what Apply All does after each bulk action;
  - the invariant that every row's applied level equals the host's level.
- `panel.dfy`: `Build`, `Toggle`, the widget events, and a window invariant that every event preserves.
- `bootstrap.dfy`: the configuration's run-once `Load`, and the per-frame `Update` state machine.

Modelling choices:

- Widgets are values. A row holds its name, applied level, max level, pending field text, visibility,
  background tint (neutral, higher, lower) and Apply caption.
- The host's state is passed in and returned as a `World` value.
- A C# exception becomes a returned `Fault`. The state at the throw point is kept: the rows listed before
  `Pretty` threw, and the rows applied before `ApplyRow` threw.
- Writing `input.text` is modelled as running `UpdateDelta`, the field's change listener. Setting a field
  to its current text may not fire the listener, but that does not matter: `UpdateDelta` changes nothing on
  a row whose highlight already agrees with its text (`Rows.UpdateDeltaFixesConsistent`).

Behaviour of the code that the model keeps as written:

- Rows are listed once, in `Build`. Later presses of the toggle key only flip visibility
  (`Bootstrap.LaterPressToggles`), so pending edits survive closing and reopening, and a level the game
  changes after the listing is not picked up.
- Two code paths throw:
  - `Pretty` on a bare `crafting` name, in any letter case. This cuts the listing short, leaves the window
    shown and skips that frame's `Toggle`.
  - `ApplyRow` on a text that parses, with no player or no progression value of that name. This throws
    before any write. Apply All then stops with the earlier rows already applied.
- Max All then Apply All reaches the max only for rows whose max is at least 0. A row with a negative max
  and an applied level different from that max ends at 0.
- Zero All writes the literal text `"1"`, not `"0"` (`Editor.ZeroText`).

## Model

| member | source | states |
|---|---|---|
| Numbers.Clamp | CraftingSkillEditor.cs:270 | `Mathf.Clamp(v, lo, hi)`: a value below `lo` becomes `lo`; a value not below `lo` but above `hi` becomes `hi` (so `clamp(999, 0, 10)` is 10, and with `max < 0` a non-negative value becomes `max`); a value inside `[lo, hi]` is kept; the result lies in `[lo, hi]` when `lo <= hi` |
| Numbers.ParseToString | CraftingSkillEditor.cs:268-275 | `int.TryParse` reads back every 32-bit integer that `ToString` writes, so a field set to `v.ToString()` parses to `v` |
| Numbers.ToStringInjective | CraftingSkillEditor.cs:256 | two levels have the same decimal text exactly when they are equal, so Apply All's string comparison `text != current.ToString()` is a comparison of numbers for canonical text |
| Numbers.ParseIgnoresPadding | CraftingSkillEditor.cs:268 | `int.TryParse` ignores the same run of white space added at both ends |
| Numbers.ToString | CraftingSkillEditor.cs:222 | `int.ToString()`: a non-empty text that starts with `-` exactly for negative values |
| Numbers.ToStringCanonical | CraftingSkillEditor.cs:222 | the text `int.ToString()` writes is canonical: an optional `-` for negative values, then at least one decimal digit and no leading zero |
| Numbers.TryParse | CraftingSkillEditor.cs:285 | a text without a decimal digit never parses, so UpdateDelta leaves such a row's highlight alone |
| Ascii.IndexOf | CraftingSkillEditor.cs:262 | the first position where the query occurs, or -1 exactly when it occurs nowhere |
| Names.Pretty | CraftingSkillEditor.cs:322-358 | the empty name maps to itself; the result is a failure (`IndexOutOfRange`) exactly for a bare prefix in any case; a known key after the prefix gives its label; an unknown one keeps its length and letters and gets its first character upper-cased |
| Names.Label | CraftingSkillEditor.cs:330-355 | the category table: every label is non-empty |
| Names.Remainder | CraftingSkillEditor.cs:327-328 | `Substring(8)` after a prefix matched in any case: the name is the prefix followed by the result; a name without the prefix is kept whole |
| Names.PrettyIgnoresPrefixCase | CraftingSkillEditor.cs:327-328 | the prefix is stripped in any letter case, so only the remainder decides the display name |
| Names.PrefixedRemainder | CraftingSkillEditor.cs:327-328 | stripping the prefix leaves exactly what followed it |
| Names.KnownKey | CraftingSkillEditor.cs:330-355 | every key of the table, in any letter case, after the prefix displays as its label |
| Names.KnownHandguns | CraftingSkillEditor.cs:338 | `craftingHandguns` displays as `Handguns` |
| Names.KnownBowsAnyCase | CraftingSkillEditor.cs:341 | the table lookup ignores case: `craftingBOWS` displays as `Bows` |
| Names.UnknownFoo | CraftingSkillEditor.cs:357 | an unknown key only gets its first letter capitalised: `craftingfoo` displays as `Foo` |
| Names.BarePrefixThrows | CraftingSkillEditor.cs:327-357 | `crafting` and `CRAFTING` leave an empty remainder whose first character is indexed, which throws |
| Host.Lookup | CraftingSkillEditor.cs:271 | `GetProgressionValue(name)`: the first value whose class has that name; none exactly when no value has it |
| Host.LookupIgnoresLevels | CraftingSkillEditor.cs:271 | writing levels never changes which value a name finds |
| Host.LookupUnique | CraftingSkillEditor.cs:271 | with unique class names, a value's own name finds that value |
| Host.SetLevel | CraftingSkillEditor.cs:271 | `.Level = v` changes that value's level and nothing else |
| Rows.UpdateDelta | CraftingSkillEditor.cs:283-289 | only tint and caption change; an unparseable text changes nothing; afterwards the highlight agrees with the text (caption `Apply*` and green or red tint exactly when the number differs from the applied level, green when higher) |
| Rows.ConsistentClean | CraftingSkillEditor.cs:286-288 | on a row whose highlight agrees with a numeric text, a neutral tint and an `Apply` caption both mean "nothing pending" |
| Rows.UpdateDeltaFixesConsistent | CraftingSkillEditor.cs:283-289 | recomputing an agreeing highlight changes nothing |
| Rows.SetText | CraftingSkillEditor.cs:245 | writing a field through its change listener sets the text, keeps name, levels and visibility, and leaves the highlight agreeing; an unparseable text keeps the previous tint and caption |
| Rows.FreshRow | CraftingSkillEditor.cs:222-242 | a new row carries the value's name, level and max, is visible, neutral and captioned `Apply`, and its field holds `level.ToString()`, which parses back to the level |
| Rows.FreshRowClean | CraftingSkillEditor.cs:222-236 | a new row's field reads back as its level, so it starts clean and neutral |
| Editor.CraftingPositions | CraftingSkillEditor.cs:203-207 | the positions picked are crafting skills, in increasing list order |
| Editor.CraftingPositionsComplete | CraftingSkillEditor.cs:203-207 | no value with a class and a `crafting` name is skipped |
| Editor.RowFor | CraftingSkillEditor.cs:222-242 | the row for a crafting value: its class name, level and class max, its field holding `level.ToString()`, visible, clean and with an agreeing highlight |
| Editor.ListFrom | CraftingSkillEditor.cs:203-247 | one formattable, visible row per crafting skill up to the first name `Pretty` cannot format, where the listing stops with `IndexOutOfRange` |
| Editor.ListedRows | CraftingSkillEditor.cs:231-246 | row `j` is built from the `j`-th crafting skill: its name, level and class max, its field holding the level |
| Editor.Refresh | CraftingSkillEditor.cs:195-251 | no player gives no rows and no fault; rows are formattable; on success each row's visibility is the search box's verdict, after a throw all rows are visible |
| Editor.RefreshListsCraftingSkills | CraftingSkillEditor.cs:200-247 | the rows are exactly the crafting skills in order, all of them when nothing threw, and nothing threw exactly when every crafting name is formattable |
| Editor.RefreshSynced | CraftingSkillEditor.cs:203-236 | with unique class names, every listed row's level is the level the host finds for its name, and names are distinct |
| Editor.FilterRows | CraftingSkillEditor.cs:258-263 | only visibility changes; an empty query shows every row; otherwise a row is shown exactly when its display name contains the query, ignoring case |
| Editor.FilterFrom | CraftingSkillEditor.cs:260-262 | the loop from row `i`: earlier rows untouched, later rows filtered, and a name that throws ends the loop |
| Editor.ClearingFilterRestores | CraftingSkillEditor.cs:258-263 | clearing the query after any filter shows every row again with its pending text untouched |
| Editor.LastFilterWins | CraftingSkillEditor.cs:258-263 | over formattable rows, filtering twice is the same as filtering with the last query only |
| Editor.ApplyRow | CraftingSkillEditor.cs:265-281 | with a game world present: ignored exactly when the text does not parse; throws `NullReference` exactly when it parses but there is no player or no value of that name; otherwise writes `clamp(v, 0, max)` to that value only, and shows it as the row's applied level and field text |
| Editor.AppliedRowClean | CraftingSkillEditor.cs:273-276 | the applied row's field reads back as its new level: clean, neutral, captioned `Apply` |
| Editor.MaxAll | CraftingSkillEditor.cs:253 | every field holds `max.ToString()`, which parses back to the max; levels and visibility unchanged; highlights agree |
| Editor.ZeroAll | CraftingSkillEditor.cs:254 | every field holds the literal `"1"`, which parses to 1; levels and visibility unchanged; highlights agree |
| Editor.ResetAll | CraftingSkillEditor.cs:255 | every field spells its applied level, so no row is pending |
| Editor.ApplyAllFrom | CraftingSkillEditor.cs:256 | the loop from row `i`: earlier rows untouched, rows whose text spells their level skipped, every other row unchanged or committed as its clamped value; player and classes kept |
| Editor.ApplyAll | CraftingSkillEditor.cs:256 | each row keeps its name, max and visibility, and ends unchanged or committed as its clamped value; without a player nothing changes |
| Editor.ApplyAllWithoutFaults | CraftingSkillEditor.cs:256 | when every row's value exists, Apply All treats each row on its own: skipped, ignored or set to its clamped value |
| Editor.ApplyRowKeepsSynced | CraftingSkillEditor.cs:271-273 | one apply writes the host value of its own row and of no other row with a different name |
| Editor.ApplyAllKeepsSynced | CraftingSkillEditor.cs:256 | Apply All keeps every row's applied level equal to the host's level for its name |
| Editor.ApplyAllKeepsOthers | CraftingSkillEditor.cs:256-271 | Apply All writes only the progression values its rows name: any other value, such as a skill that is not a crafting skill, keeps its level |
| Editor.ResetAllThenApplyAll | CraftingSkillEditor.cs:255-256 | Reset All then Apply All changes neither rows nor host |
| Editor.MaxAllThenApplyAll | CraftingSkillEditor.cs:253-256 | Max All then Apply All leaves every row with `max >= 0` at its max, rows and host alike, with nothing pending |
| Editor.MaxAllSkipsRowsAtMax | CraftingSkillEditor.cs:253-256 | when every row's remembered level is its max, Max All then Apply All changes neither rows nor host, whatever level the host holds |
| Editor.ZeroAllThenApplyAll | CraftingSkillEditor.cs:254-256 | Zero All then Apply All leaves every row at `clamp(1, 0, max)`, except a row already at 1; nothing pending; host in sync |
| Panel.Build | CraftingSkillEditor.cs:104-178 | a built window is left alone; otherwise the window is built with an empty search, shown exactly when listing threw, its rows formattable and visible, and empty without a player |
| Panel.Toggle | CraftingSkillEditor.cs:180 | visibility flips; rows and search stay |
| Panel.ToggleTwice | CraftingSkillEditor.cs:180 | toggling twice restores the window |
| Panel.BuildIdempotent | CraftingSkillEditor.cs:106 | a second Build changes nothing and reports nothing, whatever the host now holds |
| Panel.Handle | CraftingSkillEditor.cs:128-134 | no widget event lists rows anew: root, row count and names stay; only the two apply buttons touch the host, and never the player's classes or presence |
| Panel.BuildCoherent | CraftingSkillEditor.cs:203-236 | building over unique class names gives a coherent window with nothing pending, also when listing threw |
| Panel.BuildThenApplyAllIsNoop | CraftingSkillEditor.cs:256 | every freshly listed field spells its level, so Apply All right after building changes neither rows nor host, also when listing threw |
| Panel.HandleKeepsCoherent | CraftingSkillEditor.cs:244-289 | every widget event keeps the window coherent: names formattable and distinct, highlights agreeing, visibility matching the search, levels matching the host |
| Panel.HandleAllKeepsCoherent | CraftingSkillEditor.cs:244-289 | coherence survives any run of widget events |
| Panel.ApplyUnparseableIsNoop | CraftingSkillEditor.cs:268 | Apply on a field that is not an integer changes neither window nor host |
| Panel.ApplyWritesOneSkill | CraftingSkillEditor.cs:265-276 | when rows agree with the host and names are distinct, Apply writes the clamped value to the clicked row's skill only and leaves every other row and skill level as it was |
| Bootstrap.Load | CraftingSkillEditor.cs:25-50 | loading runs once: afterwards the configuration is loaded; a file key replaces the key only on the first load; without one the key stays |
| Bootstrap.LoadRunsOnce | CraftingSkillEditor.cs:27-28 | a second load changes nothing |
| Bootstrap.Update | CraftingSkillEditor.cs:58-80 | a blocked frame (dedicated server, no or unspawned player, focused field) changes nothing; a resolved key and a loaded configuration never change; once created the window keeps its rows and search; a newly created window is shown; the window changes only on a press of the resolved key |
| Bootstrap.FirstPressShows | CraftingSkillEditor.cs:71-78 | the first press shows the window, also when listing threw |
| Bootstrap.LaterPressToggles | CraftingSkillEditor.cs:71-78 | every later press only flips visibility |
| Bootstrap.SecondPressHides | CraftingSkillEditor.cs:73-78 | two presses from a fresh driver open and then close the window, also when listing threw |
| Bootstrap.DefaultKeyIsF8 | CraftingSkillEditor.cs:22 | without a key-binding file the first unblocked frame resolves F8, and later frames keep it |
| Bootstrap.NoKeyBindingLoads | CraftingSkillEditor.cs:46-47 | a file naming the "no key" code loads and leaves the driver's key unresolved |
| Bootstrap.NoKeyNeverOpens | CraftingSkillEditor.cs:65-71 | with the "no key" code loaded, no run of frames ever opens the window |

## Left out

- Widget construction is not modelled. That covers layout, colours, fonts, the canvas and the scroll view
  (`CraftingSkillEditor.cs:104-175`, `:291-413`). A row keeps only the state the logic reads.
- The "Current" label of a row (`currentText`) is not modelled. It always shows the applied level.
- The stat-changed flags and the notification sound after an apply are not modelled. They have no effect on
  the editor's state.
- `InitMod` is not modelled. It only attaches the driver outside a dedicated server.
- `IsAnyInputFocused` is not modelled as polling (`CraftingSkillEditor.cs:182-193`). It is a boolean input
  of each frame.
- `CSEConfig.Load` is not modelled as file reading. The file path, the XML reading and `Enum.TryParse` of
  the key name become one input: the key the file yields, or none. Numeric key names are modelled as
  other key codes.
- Case-insensitive comparison and `ToLowerInvariant`/`ToUpper` are modelled on ASCII letters only. Unicode
  case folding and culture rules are not modelled.
- Numbers.TryParse: the contract states only the no-digit case. The full grammar is in its body:
  - white space `\t`..`\r` and space trimmed at either end;
  - an optional sign;
  - ASCII digits, within 32-bit range.
  Culture-specific signs, non-ASCII digits and trailing NUL characters are not modelled. The round trip
  and the padding lemmas state what the editor relies on.
- The number field's character validation is not modelled. A `IntegerNumber` field only accepts digits and
  a leading minus. The model accepts any text, so its properties cover a superset of reachable fields.
- Null class names are not modelled, nor `Pretty(null)`. Class names are always strings.
- When `Pretty` throws, the row object it was building stays in the scroll view but not in the row list.
  That orphan widget is not modelled.
- Names.Label: the contract states only that labels are non-empty. The 23 table entries are in its body.
  `Names.KnownKey` states for every key that `Pretty` returns the table's label; `Names.KnownHandguns`
  and `Names.KnownBowsAnyCase` check two entries by value.
- Host.Lookup: `GetProgressionValue(name)` belongs to the host and is not part of this model. The model
  takes it to be an exact-name search returning the first match.
- Editor.ApplyRow: a missing game world is treated as a missing player. `ApplyRow` reads
  `GameManager.Instance.World` without a null check (`CraftingSkillEditor.cs:267`), so with no world it
  throws before parsing, whatever the text. The model returns `Ignored` for an unparseable text there.
  Neither outcome changes the rows or the host, and Apply All changes nothing without a player either way.
- Levels the game changes after the rows are listed are not modelled as events. Rows are listed only in
  `Build`, so such a change leaves a row's applied level stale, whether the window is open or closed.
  Apply All then skips a row whose text still spells the stale level. For example, a row at max 5 whose
  host value became 2: Max All then Apply All leaves the host at 2 (`Editor.MaxAllSkipsRowsAtMax`). This is why `Editor.Synced` (each
  row's applied level is the host's level) is a premise of `Editor.MaxAllThenApplyAll`,
  `Editor.ZeroAllThenApplyAll` and `Panel.Coherent`.
- The window invariant (`Panel.Coherent`) also needs unique class names. Two values sharing a class name
  are not modelled: their rows would show their own levels, while Apply writes the first value's level.

=== FILE: ascii.dfy ===
/** ASCII case folding and ordinal substring search, standing in for
    .NET's OrdinalIgnoreCase comparisons and ToLowerInvariant/ToUpper. */
module Ascii {

  predicate IsUpperChar(c: char) { 'A' <= c <= 'Z' }

  predicate IsLowerChar(c: char) { 'a' <= c <= 'z' }

  function LowerChar(c: char): (d: char)
    ensures !IsUpperChar(d)
    ensures IsUpperChar(c) ==> d as int == c as int + 32
    ensures !IsUpperChar(c) ==> d == c
  {
    if IsUpperChar(c) then (c as int + 32) as char else c
  }

  function UpperChar(c: char): (d: char)
    ensures !IsLowerChar(d)
    ensures IsLowerChar(c) ==> d as int == c as int - 32
    ensures !IsLowerChar(c) ==> d == c
  {
    if IsLowerChar(c) then (c as int - 32) as char else c
  }

  /** Upper-casing a character never changes what it folds to. */
  lemma LowerOfUpper(c: char)
    ensures LowerChar(UpperChar(c)) == LowerChar(c)
  {
  }

  /** ToLowerInvariant restricted to ASCII letters. */
  function ToLower(s: string): (t: string)
  {
    seq(|s|, i requires 0 <= i < |s| => LowerChar(s[i]))
  }

  /** Case-insensitive prefix test (StartsWith with OrdinalIgnoreCase). */
  predicate StartsWithIgnoreCase(s: string, prefix: string) {
    |prefix| <= |s| && ToLower(s[..|prefix|]) == ToLower(prefix)
  }

  /** `q` occurs in `t` starting at position `i`. */
  predicate MatchAt(t: string, q: string, i: int) {
    0 <= i && i + |q| <= |t| && t[i..i + |q|] == q
  }

  /** Ordinal IndexOf: the first position at which `q` occurs in `t`, or -1. */
  function IndexOf(t: string, q: string): (r: int)
    ensures -1 <= r <= |t|
    ensures r >= 0 ==> MatchAt(t, q, r) && forall j :: 0 <= j < r ==> !MatchAt(t, q, j)
    ensures r == -1 <==> forall j :: 0 <= j ==> !MatchAt(t, q, j)
  {
    IndexFrom(t, q, 0)
  }

  function IndexFrom(t: string, q: string, i: nat): (r: int)
    requires i <= |t| + 1
    ensures r == -1 || i <= r <= |t|
    ensures r >= 0 ==> MatchAt(t, q, r) && forall j :: i <= j < r ==> !MatchAt(t, q, j)
    ensures r == -1 <==> forall j :: i <= j ==> !MatchAt(t, q, j)
    decreases |t| + 1 - i
  {
    if i + |q| > |t| then -1
    else if t[i..i + |q|] == q then assert MatchAt(t, q, i); i
    else IndexFrom(t, q, i + 1)
  }

  /** Case-insensitive containment (IndexOf with OrdinalIgnoreCase is non-negative). */
  predicate ContainsIgnoreCase(t: string, q: string) {
    IndexOf(ToLower(t), ToLower(q)) >= 0
  }
}

=== FILE: bootstrap.dfy ===
/** The per-frame driver: it resolves the toggle key from the key-binding configuration once,
    builds the window on the first press of that key, and toggles it on every press. */
module Bootstrap {
  import opened Wrappers
  import opened Host
  import opened Panel

  /** Key codes, as far as the driver tells them apart: the "no key" code, the default
      binding, and every other code. */
  datatype Key = NoKey | F8 | OtherKey(code: nat)

  /** The process-wide configuration: whether loading already ran, and the toggle key. */
  datatype Config = Config(loaded: bool, toggleKey: Key)

  const DefaultConfig: Config := Config(false, F8)

  /** Load: runs once per process. `fileKey` is what the key-binding file yields: the key its
      ToggleKey element names, or None when the file, the element or a valid name is missing
      or reading fails, in which case the key already set (F8 by default) stays. */
  function Load(c: Config, fileKey: Option<Key>): (r: Config)
    ensures r.loaded
    ensures c.loaded ==> r == c
    ensures !c.loaded && fileKey.Some? ==> r.toggleKey == fileKey.value
    ensures fileKey.None? ==> r.toggleKey == c.toggleKey
  {
    if c.loaded then c
    else Config(true, if fileKey.Some? then fileKey.value else c.toggleKey)
  }

  lemma LoadRunsOnce(c: Config, f1: Option<Key>, f2: Option<Key>)
    ensures Load(Load(c, f1), f2) == Load(c, f1)
  {
  }

  /** The driver's state: the window once created, its own copy of the toggle key
      (NoKey until resolved), and the configuration. */
  datatype Boot = Boot(ui: Option<Ui>, toggleKey: Key, config: Config)

  const Start: Boot := Boot(None, NoKey, DefaultConfig)

  /** A created window has been built. */
  predicate WellFormed(b: Boot) {
    b.ui.Some? ==> b.ui.value.root.Built?
  }

  /** What one frame offers the driver: whether this is a dedicated server, whether some
      text field of the window has focus, the keys pressed down this frame, and what the
      key-binding file would yield if loaded now. */
  datatype Frame = Frame(dedicated: bool, inputFocused: bool, pressed: set<Key>, fileKey: Option<Key>)

  /** Frames in which the driver does nothing at all. */
  predicate Blocked(w: World, f: Frame) {
    f.dedicated || w.player.None? || !w.player.value.spawned || f.inputFocused
  }

  /** "No key" is never reported as pressed. */
  predicate KeyDown(k: Key, f: Frame) {
    k != NoKey && k in f.pressed
  }

  /** Update: one frame. Unless blocked, resolve the toggle key if still unresolved; on a
      press, build the window the first time and toggle it. A build that throws skips the
      toggle of that frame. */
  function Update(b: Boot, w: World, f: Frame): (r: Boot)
    requires WellFormed(b)
    ensures WellFormed(r)
    ensures Blocked(w, f) ==> r == b
    ensures b.toggleKey != NoKey ==> r.toggleKey == b.toggleKey && r.config == b.config
    ensures b.ui.Some? ==> r.ui.Some? && r.ui.value.rows == b.ui.value.rows && r.ui.value.search == b.ui.value.search
    ensures b.ui.None? && r.ui.Some? ==> r.ui.value.root == Built(true)
    ensures r.ui.Some? && r.ui != b.ui ==> KeyDown(r.toggleKey, f)
    ensures b.config.loaded ==> r.config == b.config
  {
    if Blocked(w, f) then b
    else
      var config := if b.toggleKey == NoKey then Load(b.config, f.fileKey) else b.config;
      var key := if b.toggleKey == NoKey then config.toggleKey else b.toggleKey;
      var b1 := b.(toggleKey := key, config := config);
      if !KeyDown(key, f) then b1
      else match b.ui
        case Some(u) => b1.(ui := Some(Toggle(u)))
        case None =>
          var built := Build(Initial, w);
          if built.1.Some? then b1.(ui := Some(built.0))
          else b1.(ui := Some(Toggle(built.0)))
  }

  /** The first press of the toggle key shows the window, whether or not listing the rows
      threw. */
  lemma FirstPressShows(b: Boot, w: World, f: Frame)
    requires WellFormed(b) && b.ui.None? && !Blocked(w, f)
    requires KeyDown(if b.toggleKey == NoKey then Load(b.config, f.fileKey).toggleKey else b.toggleKey, f)
    ensures Update(b, w, f).ui.Some? && Update(b, w, f).ui.value.root == Built(true)
  {
  }

  /** Every later press flips the window and lists nothing anew: rows, pending texts and
      search stay as they were. */
  lemma LaterPressToggles(b: Boot, w: World, f: Frame)
    requires WellFormed(b) && b.ui.Some? && b.toggleKey != NoKey && !Blocked(w, f)
    requires KeyDown(b.toggleKey, f)
    ensures Update(b, w, f) == b.(ui := Some(Toggle(b.ui.value)))
  {
  }

  /** With no key-binding file, the first frame that is not blocked resolves F8 and loads
      the configuration, and no later frame changes either. */
  lemma DefaultKeyIsF8(w: World, f: Frame, w': World, f': Frame)
    requires !Blocked(w, f) && f.fileKey.None?
    ensures var r := Update(Start, w, f);
      && r.toggleKey == F8 && r.config == Config(true, F8)
      && Update(r, w', f').toggleKey == F8 && Update(r, w', f').config == Config(true, F8)
  {
  }

  /** A key-binding file naming the "no key" code leaves the driver unresolved after loading. */
  lemma NoKeyBindingLoads(w: World, f: Frame)
    requires !Blocked(w, f) && f.fileKey == Some(NoKey)
    ensures Update(Start, w, f) == Start.(config := Config(true, NoKey))
  {
  }

  /** A binding to the "no key" code can never open the window: the driver keeps trying
      to resolve a key, and the configuration, already loaded, keeps yielding "no key". */
  lemma {:induction false} NoKeyNeverOpens(b: Boot, ws: seq<World>, fs: seq<Frame>)
    requires WellFormed(b) && b.ui.None? && b.toggleKey == NoKey
    requires b.config == Config(true, NoKey)
    requires |ws| == |fs|
    ensures var r := Run(b, ws, fs); r.ui.None? && r.toggleKey == NoKey
    decreases |fs|
  {
    if fs != [] {
      NoKeyNeverOpens(Update(b, ws[0], fs[0]), ws[1..], fs[1..]);
    }
  }

  /** A run of frames, each with the world as it stands in that frame. */
  function Run(b: Boot, ws: seq<World>, fs: seq<Frame>): (r: Boot)
    requires WellFormed(b) && |ws| == |fs|
    ensures WellFormed(r)
    ensures b.ui.Some? ==> r.ui.Some? && r.ui.value.rows == b.ui.value.rows
    decreases |fs|
  {
    if fs == [] then b else Run(Update(b, ws[0], fs[0]), ws[1..], fs[1..])
  }

  /** Two presses in a row, from a fresh driver, open and then close the window, also when
      listing the rows threw. */
  lemma SecondPressHides(w1: World, f1: Frame, w2: World, f2: Frame)
    requires !Blocked(w1, f1) && !Blocked(w2, f2)
    requires KeyDown(Load(DefaultConfig, f1.fileKey).toggleKey, f1)
    requires KeyDown(Load(DefaultConfig, f1.fileKey).toggleKey, f2)
    ensures var r := Update(Update(Start, w1, f1), w2, f2);
      r.ui.Some? && r.ui.value.root == Built(false)
  {
  }
}

=== FILE: editor.dfy ===
/** The editor controller's row logic: building rows from the host's progression values,
    applying a row, the four bulk actions and the search filter. */
module Editor {
  import opened Wrappers
  import opened Ascii
  import opened Numbers
  import opened Names
  import opened Host
  import opened Rows

  // ---------------------------------------------------------------------------
  // Row building (Refresh)

  /** A progression value that gets a row: it has a class whose name starts with the prefix. */
  predicate IsCraftingSkill(e: Entry) {
    e.cls.Some? && StartsWithIgnoreCase(e.cls.value.name, Prefix)
  }

  /** The positions, in list order, of the crafting skills at or after position `i`. */
  function CraftingPositions(es: seq<Entry>, i: nat): (ps: seq<nat>)
    requires i <= |es|
    ensures forall a :: 0 <= a < |ps| ==> i <= ps[a] < |es| && IsCraftingSkill(es[ps[a]])
    ensures forall a, b :: 0 <= a < b < |ps| ==> ps[a] < ps[b]
    decreases |es| - i
  {
    if i == |es| then []
    else if IsCraftingSkill(es[i]) then [i] + CraftingPositions(es, i + 1)
    else CraftingPositions(es, i + 1)
  }

  /** No crafting skill is missed. */
  lemma {:induction false} CraftingPositionsComplete(es: seq<Entry>, i: nat)
    requires i <= |es|
    ensures forall k :: i <= k < |es| && IsCraftingSkill(es[k]) ==> k in CraftingPositions(es, i)
    decreases |es| - i
  {
    if i < |es| {
      CraftingPositionsComplete(es, i + 1);
    }
  }

  /** The row a crafting skill's progression value starts with. */
  function RowFor(e: Entry): (r: Row)
    requires e.cls.Some?
    ensures r.name == e.cls.value.name && r.current == e.level && r.max == e.cls.value.maxLevel
    ensures r.text == ToString(e.level)
    ensures r.visible && !IsDirty(r) && Consistent(r)
  {
    FreshRowClean(e.cls.value.name, e.level, e.cls.value.maxLevel);
    FreshRow(e.cls.value.name, e.level, e.cls.value.maxLevel)
  }

  /** The rows a refresh produced, and the exception that cut it short, if any. */
  datatype Listing = Listing(rows: seq<Row>, fault: Option<Fault>)

  /** The foreach over the quick list from position `i`: skip values without a crafting
      class, format the name (which throws for a bare prefix), append a row. */
  function ListFrom(es: seq<Entry>, i: nat): (l: Listing)
    requires i <= |es|
    ensures var ps := CraftingPositions(es, i);
      && |l.rows| <= |ps|
      && (l.fault.None? ==> |l.rows| == |ps|)
      && (forall j :: 0 <= j < |l.rows| ==> Formattable(l.rows[j].name) && l.rows[j].visible)
      && (l.fault.Some? ==> l.fault == Some(IndexOutOfRange))
      && (l.fault.Some? ==> |l.rows| < |ps| && !Formattable(es[ps[|l.rows|]].cls.value.name))
    decreases |es| - i
  {
    if i == |es| then Listing([], None)
    else if !IsCraftingSkill(es[i]) then
      ListFrom(es, i + 1)
    else
      // Pretty(name) throws exactly when the name is not Formattable.
      if !Formattable(es[i].cls.value.name) then Listing([], Some(IndexOutOfRange))
      else
        var rest := ListFrom(es, i + 1);
        var rows := [RowFor(es[i])] + rest.rows;
        Listing(rows, rest.fault)
  }

  /** The listed rows are, in order, the rows of the crafting skills' progression values. */
  lemma {:induction false} ListedRows(es: seq<Entry>, i: nat)
    requires i <= |es|
    ensures var l := ListFrom(es, i);
      var ps := CraftingPositions(es, i);
      forall j :: 0 <= j < |l.rows| ==> l.rows[j] == RowFor(es[ps[j]])
    decreases |es| - i
  {
    if i < |es| {
      var next := i + 1;
      ListedRows(es, next);
      var l := ListFrom(es, i);
      var rest := ListFrom(es, next);
      var ps := CraftingPositions(es, i);
      if !IsCraftingSkill(es[i]) {
        assert l == rest && ps == CraftingPositions(es, next);
      } else if Formattable(es[i].cls.value.name) {
        assert ps == [i] + CraftingPositions(es, next);
        assert l.rows == [RowFor(es[i])] + rest.rows;
      }
    }
  }

  /** Refresh(): without a player there are no rows; otherwise the listed rows, with the
      current search text re-applied when it is not empty. */
  function Refresh(w: World, search: string): (l: Listing)
    ensures w.player.None? ==> l == Listing([], None)
    ensures AllPretty(l.rows)
    ensures l.fault.Some? || search == [] ==> forall j :: 0 <= j < |l.rows| ==> l.rows[j].visible
    ensures l.fault.None? ==> forall j :: 0 <= j < |l.rows| ==> l.rows[j].visible == Shown(l.rows[j].name, search)
  {
    match w.player
    case None => Listing([], None)
    case Some(p) =>
      var built := ListFrom(p.entries, 0);
      if built.fault.None? && search != [] then
        Listing(FilterRows(built.rows, search), None)
      else built
  }

  /** A refresh lists exactly the crafting skills, in the host's order, each with its level,
      max level and a clean field; a bare "crafting" class cuts the list short. */
  lemma RefreshListsCraftingSkills(w: World, search: string)
    requires w.player.Some?
    ensures var l := Refresh(w, search);
      var es := w.player.value.entries;
      var ps := CraftingPositions(es, 0);
      && |l.rows| <= |ps|
      && (forall j :: 0 <= j < |l.rows| ==> l.rows[j].(visible := true) == RowFor(es[ps[j]]))
      && (l.fault.None? <==> |l.rows| == |ps|)
      && (l.fault.None? <==> forall a :: 0 <= a < |ps| ==> Formattable(es[ps[a]].cls.value.name))
      && (forall k :: 0 <= k < |es| && IsCraftingSkill(es[k]) ==> k in ps)
  {
    var es := w.player.value.entries;
    ListedRows(es, 0);
    CraftingPositionsComplete(es, 0);
  }

  // ---------------------------------------------------------------------------
  // The search filter (FilterRows)

  /** Whether a row named `name` is shown for the query `q`. */
  predicate Shown(name: string, q: string) {
    q == [] || (Pretty(name).Success? && ContainsIgnoreCase(Pretty(name).value, q))
  }

  /** Every row's name is one Pretty formats without throwing. */
  predicate AllPretty(rows: seq<Row>) {
    forall j :: 0 <= j < |rows| ==> Formattable(rows[j].name)
  }

  /** FilterRows(q): show a row iff the query is empty or its display name contains the
      query, ignoring case. Only visibility changes. */
  function FilterRows(rows: seq<Row>, q: string): (res: seq<Row>)
    ensures |res| == |rows|
    ensures forall j :: 0 <= j < |rows| ==> res[j].(visible := rows[j].visible) == rows[j]
    ensures AllPretty(rows) ==> forall j :: 0 <= j < |rows| ==> res[j].visible == Shown(rows[j].name, q)
    ensures q == [] ==> forall j :: 0 <= j < |rows| ==> res[j].visible
  {
    FilterFrom(rows, q, 0)
  }

  /** The loop from row `i`; a name Pretty cannot format throws and ends the loop. */
  function FilterFrom(rows: seq<Row>, q: string, i: nat): (res: seq<Row>)
    requires i <= |rows|
    ensures |res| == |rows|
    ensures forall j :: 0 <= j < |rows| ==> res[j].(visible := rows[j].visible) == rows[j]
    ensures forall j :: 0 <= j < i ==> res[j] == rows[j]
    ensures (forall j :: i <= j < |rows| ==> Formattable(rows[j].name)) ==>
              forall j :: i <= j < |rows| ==> res[j].visible == Shown(rows[j].name, q)
    ensures q == [] ==> forall j :: i <= j < |rows| ==> res[j].visible
    decreases |rows| - i
  {
    if i == |rows| then rows
    else
      var next := i + 1;
      if q == [] then FilterFrom(rows[i := rows[i].(visible := true)], q, next)
      else match Pretty(rows[i].name)
        case Failure(_) => rows
        case Success(d) =>
          FilterFrom(rows[i := rows[i].(visible := ContainsIgnoreCase(d, q))], q, next)
  }

  /** Filtering is non-destructive: clearing the query after any filter shows every row
      again, with its pending text and applied level untouched. */
  lemma ClearingFilterRestores(rows: seq<Row>, q: string)
    ensures FilterRows(FilterRows(rows, q), []) == seq(|rows|, j requires 0 <= j < |rows| => rows[j].(visible := true))
  {
    var once := FilterRows(rows, q);
    var twice := FilterRows(once, []);
    assert forall j :: 0 <= j < |rows| ==> twice[j] == rows[j].(visible := true);
  }

  /** Only the last query matters. */
  lemma LastFilterWins(rows: seq<Row>, q1: string, q2: string)
    requires AllPretty(rows)
    ensures FilterRows(FilterRows(rows, q1), q2) == FilterRows(rows, q2)
  {
    var once := FilterRows(rows, q1);
    assert forall j :: 0 <= j < |rows| ==> once[j].name == rows[j].name;
    assert AllPretty(once);
    var a := FilterRows(once, q2);
    var b := FilterRows(rows, q2);
    assert forall j :: 0 <= j < |rows| ==> a[j] == b[j];
  }

  // ---------------------------------------------------------------------------
  // Applying a row (ApplyRow)

  /** What clicking Apply on one row did. */
  datatype Applied =
    | Ignored                         // the pending text is not an integer
    | Threw(fault: Fault)             // no player, or no progression value of that name
    | Wrote(row: Row, world: World)   // the clamped level was written back

  /** ApplyRow: parse the pending text, clamp it to [0, max], write it to the host's
      progression value of that name, and show it as the row's clean new level. */
  function ApplyRow(r: Row, w: World): (o: Applied)
    ensures o.Ignored? <==> TryParse(r.text).None?
    ensures o.Threw? <==>
              TryParse(r.text).Some? && (w.player.None? || Lookup(w.player.value.entries, r.name).None?)
    ensures o.Threw? ==> o.fault == NullReference
    ensures o.Wrote? ==>
      var v := Clamp(TryParse(r.text).value, 0, r.max);
      && o.row.current == v
      && o.row.text == ToString(v)
      && o.row.tint == Neutral && o.row.caption == ApplyLabel
      && o.row.(current := r.current, text := r.text, tint := r.tint, caption := r.caption) == r
    ensures o.Wrote? ==>
      var v := Clamp(TryParse(r.text).value, 0, r.max);
      && w.player.Some? && o.world.player.Some?
      && var es := w.player.value.entries;
         var fs := o.world.player.value.entries;
         var k := Lookup(es, r.name).value;
         && o.world.player.value.spawned == w.player.value.spawned
         && SameClasses(es, fs)
         && fs[k].level == v
         && forall j :: 0 <= j < |es| && j != k ==> fs[j] == es[j]
    ensures o.Wrote? && r.max >= 0 ==> 0 <= o.row.current <= r.max
  {
    match TryParse(r.text)
    case None => Ignored
    case Some(parsed) =>
      if w.player.None? then Threw(NullReference)
      else
        var p := w.player.value;
        match Lookup(p.entries, r.name)
        case None => Threw(NullReference)
        case Some(k) =>
          var v := Clamp(parsed, 0, r.max);
          var es := SetLevel(p.entries, k, v);
          ParseToString(v);
          var shown := SetText(r.(current := v), ToString(v));
          Wrote(UpdateDelta(shown), World(Some(p.(entries := es))))
  }

  /** The row an apply writes reads back as its new level: clean, and highlighted to match. */
  lemma AppliedRowClean(r: Row, w: World)
    requires ApplyRow(r, w).Wrote?
    ensures TryParse(ApplyRow(r, w).row.text) == Some(ApplyRow(r, w).row.current)
    ensures !IsDirty(ApplyRow(r, w).row) && Consistent(ApplyRow(r, w).row)
  {
    ParseToString(ApplyRow(r, w).row.current);
  }

  // ---------------------------------------------------------------------------
  // Bulk actions

  /** Max All: every field gets its row's max level; nothing is applied. */
  function MaxAll(rows: seq<Row>): (res: seq<Row>)
    ensures |res| == |rows|
    ensures forall j :: 0 <= j < |rows| ==>
      && res[j].text == ToString(rows[j].max)
      && TryParse(res[j].text) == Some(rows[j].max)
      && res[j].(text := rows[j].text, tint := rows[j].tint, caption := rows[j].caption) == rows[j]
      && Consistent(res[j])
  {
    ParseEveryMax(rows);
    seq(|rows|, j requires 0 <= j < |rows| => SetText(rows[j], ToString(rows[j].max)))
  }

  lemma ParseEveryMax(rows: seq<Row>)
    ensures forall j :: 0 <= j < |rows| ==> TryParse(ToString(rows[j].max)) == Some(rows[j].max)
  {
    forall j | 0 <= j < |rows|
      ensures TryParse(ToString(rows[j].max)) == Some(rows[j].max)
    {
      ParseToString(rows[j].max);
    }
  }

  /** The text Zero All writes: the literal "1", not "0". */
  const ZeroText: string := "1"

  /** Zero All: every field gets "1"; nothing is applied. */
  function ZeroAll(rows: seq<Row>): (res: seq<Row>)
    ensures |res| == |rows|
    ensures forall j :: 0 <= j < |rows| ==>
      && res[j].text == ZeroText
      && TryParse(res[j].text) == Some(1)
      && res[j].(text := rows[j].text, tint := rows[j].tint, caption := rows[j].caption) == rows[j]
      && Consistent(res[j])
  {
    assert ZeroText == ToString(1);
    ParseToString(1);
    seq(|rows|, j requires 0 <= j < |rows| => SetText(rows[j], ZeroText))
  }

  /** Reset All: every field gets its row's applied level back, so no row is dirty. */
  function ResetAll(rows: seq<Row>): (res: seq<Row>)
    ensures |res| == |rows|
    ensures forall j :: 0 <= j < |rows| ==>
      && res[j].text == ToString(res[j].current)
      && res[j].(text := rows[j].text, tint := rows[j].tint, caption := rows[j].caption) == rows[j]
      && !IsDirty(res[j]) && res[j].tint == Neutral && res[j].caption == ApplyLabel
  {
    ParseEveryCurrent(rows);
    seq(|rows|, j requires 0 <= j < |rows| => SetText(rows[j], ToString(rows[j].current)))
  }

  lemma ParseEveryCurrent(rows: seq<Row>)
    ensures forall j :: 0 <= j < |rows| ==> TryParse(ToString(rows[j].current)) == Some(rows[j].current)
  {
    forall j | 0 <= j < |rows|
      ensures TryParse(ToString(rows[j].current)) == Some(rows[j].current)
    {
      ParseToString(rows[j].current);
    }
  }

  /** The fields a row keeps through any apply: which skill it edits and whether it is shown. */
  predicate SameRow(a: Row, b: Row) {
    a.name == b.name && a.max == b.max && a.visible == b.visible
  }

  /** The row after a successful apply of the pending value `v`. */
  predicate CommittedAs(after: Row, before: Row) {
    && TryParse(before.text).Some?
    && after.current == Clamp(TryParse(before.text).value, 0, before.max)
    && after.text == ToString(after.current)
    && after.tint == Neutral && after.caption == ApplyLabel
  }

  /** Apply All from row `i`: apply each row whose text differs, as a string, from its
      applied level; an exception ends the loop with the earlier rows already applied. */
  function ApplyAllFrom(rows: seq<Row>, w: World, i: nat): (res: (seq<Row>, World))
    requires i <= |rows|
    ensures |res.0| == |rows|
    ensures forall j :: 0 <= j < |rows| ==> SameRow(res.0[j], rows[j])
    ensures forall j :: 0 <= j < i ==> res.0[j] == rows[j]
    ensures forall j :: i <= j < |rows| && rows[j].text == ToString(rows[j].current) ==> res.0[j] == rows[j]
    ensures forall j :: i <= j < |rows| ==> res.0[j] == rows[j] || CommittedAs(res.0[j], rows[j])
    ensures res.1.player.Some? <==> w.player.Some?
    ensures w.player.Some? ==>
      && res.1.player.value.spawned == w.player.value.spawned
      && SameClasses(w.player.value.entries, res.1.player.value.entries)
    ensures w.player.None? ==> res == (rows, w)
    decreases |rows| - i
  {
    if i == |rows| then (rows, w)
    else
      var next := i + 1;
      if rows[i].text == ToString(rows[i].current) then ApplyAllFrom(rows, w, next)
      else match ApplyRow(rows[i], w)
        case Ignored => ApplyAllFrom(rows, w, next)
        case Threw(_) => (rows, w)
        case Wrote(r, w') =>
          var rows' := rows[i := r];
          assert CommittedAs(r, rows[i]);
          assert forall j :: 0 <= j < |rows| && j != i ==> rows'[j] == rows[j];
          ApplyAllFrom(rows', w', next)
  }

  function ApplyAll(rows: seq<Row>, w: World): (res: (seq<Row>, World))
    ensures |res.0| == |rows|
    ensures forall j :: 0 <= j < |rows| ==> SameRow(res.0[j], rows[j])
    ensures forall j :: 0 <= j < |rows| && rows[j].text == ToString(rows[j].current) ==> res.0[j] == rows[j]
    ensures forall j :: 0 <= j < |rows| ==> res.0[j] == rows[j] || CommittedAs(res.0[j], rows[j])
    ensures w.player.None? ==> res == (rows, w)
  {
    ApplyAllFrom(rows, w, 0)
  }

  // ---------------------------------------------------------------------------
  // Properties of Apply All

  /** What Apply All should make of one row when nothing throws: rows whose text spells
      their applied level, and rows whose text is not a number, stay as they are; any other
      row takes the clamped value and shows it clean. */
  function ExpectedAfterApply(r: Row): Row {
    if r.text == ToString(r.current) then r
    else match TryParse(r.text)
      case None => r
      case Some(v) =>
        var c := Clamp(v, 0, r.max);
        r.(current := c, text := ToString(c), tint := Neutral, caption := ApplyLabel)
  }

  /** Every row names a progression value the player has. */
  predicate AllFound(rows: seq<Row>, es: seq<Entry>) {
    forall j :: 0 <= j < |rows| ==> Lookup(es, rows[j].name).Some?
  }

  /** Every row's applied level is the host's level for its name. */
  predicate Synced(rows: seq<Row>, es: seq<Entry>) {
    forall j :: 0 <= j < |rows| ==> LevelOf(es, rows[j].name) == Some(rows[j].current)
  }

  predicate DistinctNames(rows: seq<Row>) {
    forall a, b :: 0 <= a < b < |rows| ==> rows[a].name != rows[b].name
  }

  /** When every row's progression value exists, Apply All throws nowhere and treats each
      row independently. */
  lemma ApplyAllWithoutFaults(rows: seq<Row>, w: World)
    requires w.player.Some? && AllFound(rows, w.player.value.entries)
    ensures var res := ApplyAll(rows, w);
      forall j :: 0 <= j < |rows| ==> res.0[j] == ExpectedAfterApply(rows[j])
  {
    forall j | 0 <= j < |rows|
      ensures ApplyAll(rows, w).0[j] == ExpectedAfterApply(rows[j])
    {
      ApplyAllFromWithoutFaults(rows, w, 0, j);
    }
  }

  lemma {:induction false} ApplyAllFromWithoutFaults(rows: seq<Row>, w: World, i: nat, j: nat)
    requires i <= j < |rows|
    requires w.player.Some?
    requires forall k :: i <= k < |rows| ==> Lookup(w.player.value.entries, rows[k].name).Some?
    ensures ApplyAllFrom(rows, w, i).0[j] == ExpectedAfterApply(rows[j])
    decreases |rows| - i
  {
    var next := i + 1;
    var rows' := rows[i := ExpectedAfterApply(rows[i])];
    var w' := WorldAfter(rows[i], w);
    ApplyAllFromStep(rows, w, i);
    var res := ApplyAllFrom(rows', w', next);
    if i < j {
      LookupsSurviveStep(rows, w, i);
      ApplyAllFromWithoutFaults(rows', w', next, j);
    }
  }

  /** The host after Apply All's step over row `r`, when that step does not throw. */
  function WorldAfter(r: Row, w: World): World {
    if r.text != ToString(r.current) && ApplyRow(r, w).Wrote? then ApplyRow(r, w).world else w
  }

  /** One step of Apply All over a row whose progression value exists: the row becomes
      what ExpectedAfterApply says, and the loop carries on with the next row. */
  lemma ApplyAllFromStep(rows: seq<Row>, w: World, i: nat)
    requires i < |rows| && w.player.Some? && Lookup(w.player.value.entries, rows[i].name).Some?
    ensures ApplyAllFrom(rows, w, i) ==
      ApplyAllFrom(rows[i := ExpectedAfterApply(rows[i])], WorldAfter(rows[i], w), i + 1)
  {
    var r := rows[i];
    if r.text == ToString(r.current) || TryParse(r.text).None? {
      assert rows[i := ExpectedAfterApply(r)] == rows;
    } else {
      ApplyRowAsExpected(r, w);
    }
  }

  /** A step of Apply All keeps every later row's progression value findable. */
  lemma LookupsSurviveStep(rows: seq<Row>, w: World, i: nat)
    requires i < |rows| && w.player.Some?
    ensures var w' := WorldAfter(rows[i], w);
      && w'.player.Some?
      && forall j :: i < j < |rows| ==>
           Lookup(w'.player.value.entries, rows[j].name) == Lookup(w.player.value.entries, rows[j].name)
  {
    var w' := WorldAfter(rows[i], w);
    forall j | i < j < |rows|
      ensures Lookup(w'.player.value.entries, rows[j].name) == Lookup(w.player.value.entries, rows[j].name)
    {
      LookupIgnoresLevels(w.player.value.entries, w'.player.value.entries, rows[j].name);
    }
  }

  /** Applying one row whose progression value exists does what ExpectedAfterApply says. */
  lemma ApplyRowAsExpected(r: Row, w: World)
    requires w.player.Some? && Lookup(w.player.value.entries, r.name).Some?
    requires r.text != ToString(r.current) && TryParse(r.text).Some?
    ensures ApplyRow(r, w).Wrote? && ApplyRow(r, w).row == ExpectedAfterApply(r)
  {
  }

  /** Apply All keeps every row's applied level equal to the host's level. */
  lemma ApplyAllKeepsSynced(rows: seq<Row>, w: World)
    requires w.player.Some?
    requires Synced(rows, w.player.value.entries) && DistinctNames(rows)
    ensures var res := ApplyAll(rows, w);
      res.1.player.Some? && Synced(res.0, res.1.player.value.entries)
  {
    ApplyAllFromKeepsSynced(rows, w, 0);
  }

  lemma {:induction false} ApplyAllFromKeepsSynced(rows: seq<Row>, w: World, i: nat)
    requires i <= |rows|
    requires w.player.Some?
    requires Synced(rows, w.player.value.entries) && DistinctNames(rows)
    ensures var res := ApplyAllFrom(rows, w, i);
      res.1.player.Some? && Synced(res.0, res.1.player.value.entries)
    decreases |rows| - i
  {
    if i < |rows| {
      var next := i + 1;
      if rows[i].text != ToString(rows[i].current) {
        var o := ApplyRow(rows[i], w);
        if o.Wrote? {
          ApplyRowKeepsSynced(rows, w, i);
          ApplyAllFromKeepsSynced(rows[i := o.row], o.world, next);
        } else if o.Ignored? {
          ApplyAllFromKeepsSynced(rows, w, next);
        }
      } else {
        ApplyAllFromKeepsSynced(rows, w, next);
      }
    }
  }

  /** Apply All writes only the progression values its rows name: every other value, such as
      a skill that is not a crafting skill, keeps its level. */
  lemma ApplyAllKeepsOthers(rows: seq<Row>, w: World, k: nat)
    requires w.player.Some? && k < |w.player.value.entries|
    requires forall j :: 0 <= j < |rows| ==> !Named(w.player.value.entries[k], rows[j].name)
    ensures var res := ApplyAll(rows, w);
      && res.1.player.Some?
      && |res.1.player.value.entries| == |w.player.value.entries|
      && res.1.player.value.entries[k] == w.player.value.entries[k]
  {
    ApplyAllFromKeepsOthers(rows, w, 0, k);
  }

  lemma {:induction false} ApplyAllFromKeepsOthers(rows: seq<Row>, w: World, i: nat, k: nat)
    requires i <= |rows| && w.player.Some? && k < |w.player.value.entries|
    requires forall j :: i <= j < |rows| ==> !Named(w.player.value.entries[k], rows[j].name)
    ensures var res := ApplyAllFrom(rows, w, i);
      && res.1.player.Some?
      && |res.1.player.value.entries| == |w.player.value.entries|
      && res.1.player.value.entries[k] == w.player.value.entries[k]
    decreases |rows| - i
  {
    if i < |rows| {
      var next := i + 1;
      if rows[i].text != ToString(rows[i].current) {
        var o := ApplyRow(rows[i], w);
        if o.Wrote? {
          var es := w.player.value.entries;
          var written := Lookup(es, rows[i].name).value;
          assert written != k by {
            assert Named(es[written], rows[i].name);
          }
          var rows' := rows[i := o.row];
          assert o.world.player.value.entries[k] == es[k];
          assert forall j :: next <= j < |rows| ==> rows'[j] == rows[j];
          ApplyAllFromKeepsOthers(rows', o.world, next, k);
        } else if o.Ignored? {
          ApplyAllFromKeepsOthers(rows, w, next, k);
        }
      } else {
        ApplyAllFromKeepsOthers(rows, w, next, k);
      }
    }
  }

  /** One successful apply writes the host entry of its own row and no other row's. */
  lemma ApplyRowKeepsSynced(rows: seq<Row>, w: World, i: nat)
    requires i < |rows| && w.player.Some?
    requires Synced(rows, w.player.value.entries) && DistinctNames(rows)
    requires ApplyRow(rows[i], w).Wrote?
    ensures var o := ApplyRow(rows[i], w);
      && o.world.player.Some?
      && Synced(rows[i := o.row], o.world.player.value.entries)
      && DistinctNames(rows[i := o.row])
  {
    var o := ApplyRow(rows[i], w);
    var es := w.player.value.entries;
    var fs := o.world.player.value.entries;
    var k := Lookup(es, rows[i].name).value;
    var rows' := rows[i := o.row];
    forall j | 0 <= j < |rows'|
      ensures LevelOf(fs, rows'[j].name) == Some(rows'[j].current)
    {
      LookupIgnoresLevels(es, fs, rows[j].name);
      if j != i {
        var kj := Lookup(es, rows[j].name).value;
        assert kj != k by {
          assert Named(es[kj], rows[j].name) && Named(es[k], rows[i].name);
          if i < j { assert rows[i].name != rows[j].name; } else { assert rows[j].name != rows[i].name; }
        }
      }
    }
  }

  /** A row whose text spells its applied level is skipped, so after Reset All, Apply All
      changes neither the rows nor the host. */
  lemma {:induction false} ApplyAllFromSkipsClean(rows: seq<Row>, w: World, i: nat)
    requires i <= |rows|
    requires forall j :: i <= j < |rows| ==> rows[j].text == ToString(rows[j].current)
    ensures ApplyAllFrom(rows, w, i) == (rows, w)
    decreases |rows| - i
  {
    if i < |rows| {
      var next := i + 1;
      ApplyAllFromSkipsClean(rows, w, next);
    }
  }

  lemma ResetAllThenApplyAll(rows: seq<Row>, w: World)
    ensures ApplyAll(ResetAll(rows), w) == (ResetAll(rows), w)
  {
    ApplyAllFromSkipsClean(ResetAll(rows), w, 0);
  }

  /** Apply All compares the text with the applied level the row remembers, not with the host:
      when every row already shows its max as applied, Max All then Apply All writes nothing,
      whatever levels the host holds by now. */
  lemma MaxAllSkipsRowsAtMax(rows: seq<Row>, w: World)
    requires forall j :: 0 <= j < |rows| ==> rows[j].current == rows[j].max
    ensures ApplyAll(MaxAll(rows), w) == (MaxAll(rows), w)
  {
    ApplyAllFromSkipsClean(MaxAll(rows), w, 0);
  }

  /** A row whose text is the canonical spelling of v ends at v when already applied at v,
      and at v clamped to [0, max] otherwise; either way it ends clean. */
  lemma ApplyCanonicalText(r: Row, v: int32)
    requires r.text == ToString(v)
    ensures ExpectedAfterApply(r).current == (if r.current == v then v else Clamp(v, 0, r.max))
    ensures !IsDirty(ExpectedAfterApply(r))
  {
    ParseToString(v);
    ToStringInjective(v, r.current);
    var e := ExpectedAfterApply(r);
    ParseToString(e.current);
  }

  /** Max All followed by Apply All leaves every row, and the host, at its max level,
      with nothing left dirty. */
  lemma MaxAllThenApplyAll(rows: seq<Row>, w: World)
    requires w.player.Some?
    requires Synced(rows, w.player.value.entries) && DistinctNames(rows)
    ensures var res := ApplyAll(MaxAll(rows), w);
      && res.1.player.Some?
      && |res.0| == |rows|
      && (forall j :: 0 <= j < |rows| ==>
            res.0[j].current == (if rows[j].current == rows[j].max then rows[j].max
                                 else Clamp(rows[j].max, 0, rows[j].max)))
      && (forall j :: 0 <= j < |rows| && rows[j].max >= 0 ==>
            res.0[j].current == rows[j].max &&
            LevelOf(res.1.player.value.entries, rows[j].name) == Some(rows[j].max))
      && (forall j :: 0 <= j < |rows| ==> !IsDirty(res.0[j]))
  {
    var maxed := MaxAll(rows);
    assert Synced(maxed, w.player.value.entries) && DistinctNames(maxed);
    ApplyAllWithoutFaults(maxed, w);
    ApplyAllKeepsSynced(maxed, w);
    forall j | 0 <= j < |rows|
      ensures ExpectedAfterApply(maxed[j]).current ==
        (if rows[j].current == rows[j].max then rows[j].max else Clamp(rows[j].max, 0, rows[j].max))
      ensures !IsDirty(ExpectedAfterApply(maxed[j]))
    {
      ApplyCanonicalText(maxed[j], rows[j].max);
    }
  }

  /** Zero All followed by Apply All leaves every row at 1 clamped to [0, max], except a row
      already at 1, which is skipped: the floor Zero All writes is 1, not 0. */
  lemma ZeroAllThenApplyAll(rows: seq<Row>, w: World)
    requires w.player.Some?
    requires Synced(rows, w.player.value.entries) && DistinctNames(rows)
    ensures var res := ApplyAll(ZeroAll(rows), w);
      && res.1.player.Some?
      && |res.0| == |rows|
      && (forall j :: 0 <= j < |rows| ==>
            res.0[j].current == (if rows[j].current == 1 then 1 else Clamp(1, 0, rows[j].max)))
      && (forall j :: 0 <= j < |rows| && rows[j].max >= 1 ==> res.0[j].current == 1)
      && (forall j :: 0 <= j < |rows| ==> !IsDirty(res.0[j]))
      && Synced(res.0, res.1.player.value.entries)
  {
    var zeroed := ZeroAll(rows);
    assert Synced(zeroed, w.player.value.entries) && DistinctNames(zeroed);
    ApplyAllWithoutFaults(zeroed, w);
    ApplyAllKeepsSynced(zeroed, w);
    forall j | 0 <= j < |rows|
      ensures ExpectedAfterApply(zeroed[j]).current ==
        (if rows[j].current == 1 then 1 else Clamp(1, 0, rows[j].max))
      ensures !IsDirty(ExpectedAfterApply(zeroed[j]))
    {
      assert zeroed[j].text == ToString(1);
      ApplyCanonicalText(zeroed[j], 1);
    }
  }

  /** A refresh over a host whose class names are unique yields rows in sync with the
      host and with distinct names. */
  lemma RefreshSynced(w: World, search: string)
    requires w.player.Some? && UniqueNames(w.player.value.entries)
    ensures var l := Refresh(w, search);
      Synced(l.rows, w.player.value.entries) && DistinctNames(l.rows)
  {
    var es := w.player.value.entries;
    var l := Refresh(w, search);
    var ps := CraftingPositions(es, 0);
    RefreshListsCraftingSkills(w, search);
    forall j | 0 <= j < |l.rows|
      ensures LevelOf(es, l.rows[j].name) == Some(l.rows[j].current)
    {
      assert l.rows[j].(visible := true) == RowFor(es[ps[j]]);
      LookupUnique(es, ps[j]);
    }
    forall a, b | 0 <= a < b < |l.rows|
      ensures l.rows[a].name != l.rows[b].name
    {
      assert l.rows[a].(visible := true) == RowFor(es[ps[a]]);
      assert l.rows[b].(visible := true) == RowFor(es[ps[b]]);
      assert ps[a] < ps[b];
    }
  }
}

=== FILE: host.dfy ===
/** The host game's progression data as the editor sees it: the local player's
    progression values, each with an optional class (name and max level) and a level. */
module Host {
  import opened Wrappers
  import opened Numbers

  datatype SkillClass = SkillClass(name: string, maxLevel: int32)

  /** One progression value. A null value and a value whose class is null are both `cls == None`. */
  datatype Entry = Entry(cls: Option<SkillClass>, level: int32)

  datatype Player = Player(spawned: bool, entries: seq<Entry>)

  /** The part of the game world the editor touches: the primary local player, if any. */
  datatype World = World(player: Option<Player>)

  predicate Named(e: Entry, name: string) {
    e.cls.Some? && e.cls.value.name == name
  }

  /** No two classed entries share a name (the host keys progression values by name). */
  predicate UniqueNames(es: seq<Entry>) {
    forall a, b :: 0 <= a < b < |es| && es[a].cls.Some? && es[b].cls.Some? ==>
      es[a].cls.value.name != es[b].cls.value.name
  }

  /** GetProgressionValue(name): the position of the first entry whose class has this name. */
  function Lookup(es: seq<Entry>, name: string): (r: Option<nat>)
    ensures r.Some? ==> r.value < |es| && Named(es[r.value], name)
    ensures r.Some? ==> forall j :: 0 <= j < r.value ==> !Named(es[j], name)
    ensures r.None? <==> forall j :: 0 <= j < |es| ==> !Named(es[j], name)
  {
    LookupFrom(es, name, 0)
  }

  function LookupFrom(es: seq<Entry>, name: string, i: nat): (r: Option<nat>)
    requires i <= |es|
    ensures r.Some? ==> i <= r.value < |es| && Named(es[r.value], name)
    ensures r.Some? ==> forall j :: i <= j < r.value ==> !Named(es[j], name)
    ensures r.None? <==> forall j :: i <= j < |es| ==> !Named(es[j], name)
    decreases |es| - i
  {
    if i == |es| then None
    else if Named(es[i], name) then Some(i)
    else LookupFrom(es, name, i + 1)
  }

  /** Two entry lists with the same classes position for position. */
  predicate SameClasses(es: seq<Entry>, fs: seq<Entry>) {
    |es| == |fs| && forall j :: 0 <= j < |es| ==> es[j].cls == fs[j].cls
  }

  /** Lookup reads only the classes, never the levels. */
  lemma LookupIgnoresLevels(es: seq<Entry>, fs: seq<Entry>, name: string)
    requires SameClasses(es, fs)
    ensures Lookup(es, name) == Lookup(fs, name)
  {
    assert forall j :: 0 <= j < |es| ==> (Named(es[j], name) <==> Named(fs[j], name));
  }

  /** With unique names, the entry found for a name is the only one carrying it. */
  lemma LookupUnique(es: seq<Entry>, k: nat)
    requires UniqueNames(es)
    requires k < |es| && es[k].cls.Some?
    ensures Lookup(es, es[k].cls.value.name) == Some(k)
  {
  }

  /** `.Level = v` on the entry at position `k`. */
  function SetLevel(es: seq<Entry>, k: nat, v: int32): (fs: seq<Entry>)
    requires k < |es|
    ensures SameClasses(es, fs)
    ensures fs[k].level == v
    ensures forall j :: 0 <= j < |es| && j != k ==> fs[j] == es[j]
  {
    es[k := es[k].(level := v)]
  }

  /** The level the host reports for `name`, if it has such an entry. */
  function LevelOf(es: seq<Entry>, name: string): (r: Option<int32>)
    ensures r.Some? <==> Lookup(es, name).Some?
  {
    match Lookup(es, name)
    case Some(k) => Some(es[k].level)
    case None => None
  }
}

=== FILE: names.dfy ===
/** Display names of crafting skills (CraftingSkillEditorUI.Pretty). */
module Names {
  import opened Wrappers
  import opened Ascii

  /** The domain prefix that marks a progression class as a crafting skill. */
  const Prefix: string := "crafting"

  lemma LowerPrefix()
    ensures ToLower(Prefix) == Prefix
  {
  }

  /** The fixed table of known crafting categories, keyed by lower-case name. */
  function Label(key: string): (r: Option<string>)
    ensures r.Some? ==> r.value != [] && key != []
  {
    if key == "harvestingtools" then Some("Harvesting Tools")
    else if key == "repairtools" then Some("Repair Tools")
    else if key == "salvagetools" then Some("Salvage Tools")
    else if key == "sledgehammers" then Some("Sledge Hammers")
    else if key == "machineguns" then Some("Machine Guns")
    else if key == "workstations" then Some("Work Stations")
    else if key == "handguns" then Some("Handguns")
    else if key == "shotguns" then Some("Shotguns")
    else if key == "rifles" then Some("Rifles")
    else if key == "bows" then Some("Bows")
    else if key == "spears" then Some("Spears")
    else if key == "clubs" then Some("Clubs")
    else if key == "blades" then Some("Blades")
    else if key == "knuckles" then Some("Knuckles")
    else if key == "explosives" then Some("Explosives")
    else if key == "robotics" then Some("Robotics")
    else if key == "vehicles" then Some("Vehicles")
    else if key == "electrician" then Some("Electrician")
    else if key == "medical" then Some("Medical")
    else if key == "food" then Some("Food")
    else if key == "seeds" then Some("Seeds")
    else if key == "traps" then Some("Traps")
    else if key == "armor" then Some("Armor")
    else None
  }

  /** The identifier with one case-insensitive "crafting" prefix removed, if present. */
  function Remainder(s: string): (k: string)
    ensures StartsWithIgnoreCase(s, Prefix) ==> s == s[..|Prefix|] + k
    ensures !StartsWithIgnoreCase(s, Prefix) ==> k == s
  {
    if StartsWithIgnoreCase(s, Prefix) then s[|Prefix|..] else s
  }

  /** The names Pretty formats without throwing: all but the bare prefix in any case. */
  predicate Formattable(s: string) {
    ToLower(s) != Prefix
  }

  /** Pretty(s): the empty string maps to itself; otherwise the prefix is stripped, a known
      category key (compared case-insensitively) yields its label, and anything else gets its
      first character upper-cased. A bare "crafting" leaves nothing to index and throws. */
  function Pretty(s: string): (r: Result<string, Fault>)
    ensures s == [] ==> r == Success(s)
    ensures r.Success? <==> Formattable(s)
    ensures r.Failure? ==> r.error == IndexOutOfRange
    ensures r.Success? && s != [] ==> r.value != []
    ensures s != [] && Label(ToLower(Remainder(s))).Some? ==> r == Success(Label(ToLower(Remainder(s))).value)
    ensures s != [] && Label(ToLower(Remainder(s))).None? && r.Success? ==>
              var k := Remainder(s);
              && |r.value| == |k|
              && ToLower(r.value) == ToLower(k)
              && r.value[0] == UpperChar(k[0])
              && r.value[1..] == k[1..]
  {
    if s == [] then Success(s)
    else
      var k := Remainder(s);
      LowerPrefix();
      assert k == [] <==> ToLower(s) == Prefix by {
        if |s| == |Prefix| { assert s[..|Prefix|] == s; }
      }
      match Label(ToLower(k))
      case Some(l) => Success(l)
      case None =>
        if k == [] then Failure(IndexOutOfRange)
        else
          var t := [UpperChar(k[0])] + k[1..];
          assert ToLower(t) == ToLower(k) by {
            LowerOfUpper(k[0]);
            assert forall i :: 0 <= i < |k| ==> ToLower(t)[i] == ToLower(k)[i];
          }
          Success(t)
  }

  /** The prefix is recognised in any letter case: only the remainder matters. */
  lemma {:induction false} PrettyIgnoresPrefixCase(p: string, k: string)
    requires ToLower(p) == Prefix
    ensures Pretty(p + k) == Pretty(Prefix + k)
  {
    assert (p + k)[..|Prefix|] == p;
    assert (Prefix + k)[..|Prefix|] == Prefix;
    assert ToLower(Prefix) == Prefix;
    assert Remainder(p + k) == k;
    assert Remainder(Prefix + k) == k;
  }

  /** Whatever follows the prefix is what gets formatted. */
  lemma {:induction false} PrefixedRemainder(k: string)
    ensures Remainder(Prefix + k) == k
  {
    assert (Prefix + k)[..|Prefix|] == Prefix;
    assert ToLower(Prefix) == Prefix;
  }

  /** A known category maps to its table label, e.g. "craftingHandguns" to "Handguns". */
  lemma KnownHandguns()
    ensures Pretty(Prefix + "Handguns") == Success("Handguns")
  {
    PrefixedRemainder("Handguns");
    assert ToLower("Handguns") == "handguns";
  }

  /** Every entry of the table: a prefixed key, in any letter case, displays as its label. */
  lemma KnownKey(k: string)
    requires Label(ToLower(k)).Some?
    ensures Pretty(Prefix + k) == Success(Label(ToLower(k)).value)
  {
    PrefixedRemainder(k);
  }

  /** The table is consulted case-insensitively: "craftingBOWS" is "Bows". */
  lemma KnownBowsAnyCase()
    ensures Pretty(Prefix + "BOWS") == Success("Bows")
  {
    PrefixedRemainder("BOWS");
    assert ToLower("BOWS") == "bows";
  }

  /** An unknown category only gets its first character capitalised: "craftingfoo" is "Foo". */
  lemma UnknownFoo()
    ensures Pretty(Prefix + "foo") == Success("Foo")
  {
    PrefixedRemainder("foo");
    assert ToLower("foo") == "foo";
    assert Label("foo") == None;
    var r := Pretty(Prefix + "foo").value;
    assert r[0] == 'F' && r[1..] == "oo";
    assert r == [r[0]] + r[1..] == ['F'] + "oo" == "Foo";
  }

  /** A bare prefix, in any case, leaves an empty remainder whose first character is indexed. */
  lemma BarePrefixThrows()
    ensures Pretty("crafting") == Failure(IndexOutOfRange)
    ensures Pretty("CRAFTING") == Failure(IndexOutOfRange)
  {
    assert ToLower("crafting") == Prefix;
    assert ToLower("CRAFTING") == Prefix;
  }
}

=== FILE: numbers.dfy ===
/** 32-bit integers as the editor sees them: decimal rendering (Int32.ToString),
    parsing (int.TryParse with the default integer style) and Mathf.Clamp. */
module Numbers {
  import opened Wrappers

  const Int32Min: int := -0x8000_0000
  const Int32Max: int := 0x7FFF_FFFF

  /** A C# `int`. */
  newtype int32 = x: int | Int32Min <= x <= Int32Max

  predicate IsDigit(c: char) { '0' <= c <= '9' }

  /** The white space int.TryParse skips at either end: U+0009..U+000D and U+0020. */
  predicate IsWhite(c: char) { c == ' ' || '\t' <= c <= '\r' }

  predicate AllDigits(s: string) {
    forall i :: 0 <= i < |s| ==> IsDigit(s[i])
  }

  function DigitChar(d: nat): (c: char)
    requires d < 10
    ensures IsDigit(c)
  {
    ('0' as int + d) as char
  }

  function DigitValue(c: char): (d: nat)
    requires IsDigit(c)
    ensures d < 10
  {
    c as int - '0' as int
  }

  /** The decimal digits of `n`, most significant first, without leading zeros. */
  function Digits(n: nat): (s: string)
    ensures |s| >= 1 && AllDigits(s)
    ensures |s| > 1 ==> s[0] != '0'
  {
    if n < 10 then [DigitChar(n)] else Digits(n / 10) + [DigitChar(n % 10)]
  }

  /** The number a non-empty run of decimal digits denotes (leading zeros allowed). */
  function ValueOf(s: string): nat
    requires AllDigits(s)
  {
    if s == [] then 0 else ValueOf(s[..|s| - 1]) * 10 + DigitValue(s[|s| - 1])
  }

  lemma {:induction false} ValueOfDigits(n: nat)
    ensures ValueOf(Digits(n)) == n
  {
    var s := Digits(n);
    if n >= 10 {
      assert s[..|s| - 1] == Digits(n / 10);
      ValueOfDigits(n / 10);
    }
  }

  /** Decimal rendering of any integer: an optional '-' then the digits. */
  function Decimal(n: int): (s: string)
    ensures |s| >= 1 && IsDigit(s[|s| - 1])
    ensures n < 0 <==> s[0] == '-'
    ensures n >= 0 ==> AllDigits(s)
    decreases if n < 0 then 1 else 0
  {
    if n < 0 then "-" + Decimal(-n) else Digits(n)
  }

  /** Int32.ToString() in the invariant culture. */
  function ToString(n: int32): (s: string)
    ensures |s| >= 1
    ensures n < 0 <==> s[0] == '-'
  {
    Decimal(n as int)
  }

  /** The text ToString writes is canonical: a '-' exactly for negative values, then at least
      one decimal digit and no leading zero. */
  lemma ToStringCanonical(n: int32)
    ensures var s := ToString(n);
      var d := if n < 0 then s[1..] else s;
      && (n < 0 <==> s[0] == '-')
      && |d| >= 1 && AllDigits(d) && (|d| > 1 ==> d[0] != '0')
  {
    if n < 0 {
      var m: nat := -(n as int);
      assert Decimal(m) == Digits(m);
      assert ToString(n) == "-" + Digits(m);
      assert ("-" + Digits(m))[1..] == Digits(m);
    }
  }

  /** int.TryParse(s, out v): white space at either end is skipped; what is left must be
      an optional sign and at least one decimal digit, with a value that fits in 32 bits. */
  function TryParse(s: string): (r: Option<int32>)
    ensures (forall i :: 0 <= i < |s| ==> !IsDigit(s[i])) ==> r.None?
    decreases |s|
  {
    if s != [] && IsWhite(s[0]) then TryParse(s[1..])
    else if s != [] && IsWhite(s[|s| - 1]) then TryParse(s[..|s| - 1])
    else ParseNumeral(s)
  }

  /** The sign and digits of a trimmed numeral. */
  function ParseNumeral(t: string): (r: Option<int32>)
    ensures (forall i :: 0 <= i < |t| ==> !IsDigit(t[i])) ==> r.None?
  {
    var negative := t != [] && t[0] == '-';
    var body := if t != [] && (t[0] == '-' || t[0] == '+') then t[1..] else t;
    if body == [] || !AllDigits(body) then None
    else
      var v := if negative then -(ValueOf(body) as int) else ValueOf(body) as int;
      if Int32Min <= v <= Int32Max then Some(v as int32) else None
  }

  /** Every value the editor writes into an input field reads back as itself. */
  lemma ParseToString(n: int32)
    ensures TryParse(ToString(n)) == Some(n)
  {
    var s := ToString(n);
    assert !IsWhite(s[0]) by {
      if n >= 0 { assert IsDigit(s[0]); }
    }
    assert TryParse(s) == ParseNumeral(s);
    if n < 0 {
      var m: nat := -(n as int);
      assert Decimal(m) == Digits(m);
      assert s == "-" + Digits(m);
      assert s[1..] == Digits(m);
      ValueOfDigits(m);
    } else {
      assert s == Digits(n as int);
      ValueOfDigits(n as int);
    }
  }

  /** Distinct numbers render as distinct strings. */
  lemma ToStringInjective(a: int32, b: int32)
    ensures ToString(a) == ToString(b) <==> a == b
  {
    if ToString(a) == ToString(b) {
      ParseToString(a);
      ParseToString(b);
    }
  }

  /** Leading and trailing white space do not change what parses. */
  lemma ParseIgnoresPadding(s: string, pad: string)
    requires forall i :: 0 <= i < |pad| ==> IsWhite(pad[i])
    ensures TryParse(pad + s + pad) == TryParse(s)
  {
    assert pad + s + pad == pad + (s + pad);
    ParseIgnoresLeading(s + pad, pad);
    ParseIgnoresTrailing(s, pad);
  }

  lemma {:induction false} ParseIgnoresLeading(s: string, pad: string)
    requires forall i :: 0 <= i < |pad| ==> IsWhite(pad[i])
    ensures TryParse(pad + s) == TryParse(s)
    decreases |pad|
  {
    if pad == [] {
      assert pad + s == s;
    } else {
      assert (pad + s)[0] == pad[0];
      assert (pad + s)[1..] == pad[1..] + s;
      ParseIgnoresLeading(s, pad[1..]);
    }
  }

  lemma {:induction false} ParseIgnoresTrailing(s: string, pad: string)
    requires forall i :: 0 <= i < |pad| ==> IsWhite(pad[i])
    ensures TryParse(s + pad) == TryParse(s)
    decreases |s| + |pad|
  {
    if pad == [] {
      assert s + pad == s;
    } else if s == [] {
      assert s + pad == pad + s;
      ParseIgnoresLeading(s, pad);
    } else if IsWhite(s[0]) {
      assert (s + pad)[0] == s[0];
      assert (s + pad)[1..] == s[1..] + pad;
      ParseIgnoresTrailing(s[1..], pad);
    } else {
      var w := s + pad;
      assert w[0] == s[0];
      assert w[|w| - 1] == pad[|pad| - 1];
      assert w[..|w| - 1] == s + pad[..|pad| - 1];
      ParseIgnoresTrailing(s, pad[..|pad| - 1]);
    }
  }

  /** Mathf.Clamp(int value, int min, int max). */
  function Clamp(v: int32, lo: int32, hi: int32): (r: int32)
    ensures lo <= hi ==> lo <= r <= hi
    ensures lo <= v <= hi ==> r == v
    ensures r == v || r == lo || r == hi
    ensures v < lo ==> r == lo
    ensures lo <= v && hi < v ==> r == hi
  {
    if v < lo then lo else if v > hi then hi else v
  }
}

=== FILE: panel.dfy ===
/** The editor window: its one-time construction, its visibility toggle, and the events its
    widgets deliver (typing in a row's field or the search box, and the five buttons). */
module Panel {
  import opened Wrappers
  import opened Numbers
  import opened Host
  import opened Rows
  import opened Editor

  /** The window's root object: not yet created, or created and shown or hidden. */
  datatype Root = Unbuilt | Built(active: bool)

  /** The window: its root, its rows in list order, and the search box's text. */
  datatype Ui = Ui(root: Root, rows: seq<Row>, search: string)

  const Initial: Ui := Ui(Unbuilt, [], [])

  /** Build: on first use, create the window with an empty search box, list the rows, and
      hide it. When listing throws, the exception leaves the window built and still shown
      (a new root starts active) with the rows listed before the throw; later calls change
      nothing, so the rows are never listed again. */
  function Build(u: Ui, w: World): (r: (Ui, Option<Fault>))
    ensures u.root.Built? ==> r == (u, None)
    ensures u.root.Unbuilt? ==>
      && r.0.root.Built?
      && (r.0.root.active <==> r.1.Some?)
      && (r.1.Some? ==> r.1 == Some(IndexOutOfRange))
      && r.0.search == []
      && (w.player.None? ==> r.0.rows == [] && r.1.None?)
      && AllPretty(r.0.rows)
      && forall j :: 0 <= j < |r.0.rows| ==> r.0.rows[j].visible
  {
    if u.root.Built? then (u, None)
    else
      var l := Refresh(w, []);
      (Ui(Built(l.fault.Some?), l.rows, []), l.fault)
  }

  /** Toggle: show a hidden window, hide a shown one. */
  function Toggle(u: Ui): (v: Ui)
    requires u.root.Built?
    ensures v.root.Built? && v.root.active != u.root.active
    ensures v.rows == u.rows && v.search == u.search
  {
    u.(root := Built(!u.root.active))
  }

  lemma ToggleTwice(u: Ui)
    requires u.root.Built?
    ensures Toggle(Toggle(u)) == u
  {
  }

  lemma BuildIdempotent(u: Ui, w: World, w': World)
    ensures Build(Build(u, w).0, w') == (Build(u, w).0, None)
  {
  }

  // ---------------------------------------------------------------------------
  // Widget events

  datatype Event =
    | EditText(row: nat, text: string)   // a row's field changed
    | EditSearch(query: string)          // the search box changed
    | ClickApply(row: nat)               // a row's Apply button
    | ClickMaxAll
    | ClickZeroAll
    | ClickResetAll
    | ClickApplyAll

  /** An event a window with `n` rows can deliver: row events name an existing row. */
  predicate ValidEvent(e: Event, n: nat) {
    (e.EditText? ==> e.row < n) && (e.ClickApply? ==> e.row < n)
  }

  /** One event's effect on the window and the host. An exception thrown by a handler
      (applying a row with no player or no such progression value) leaves both unchanged. */
  function Handle(u: Ui, w: World, e: Event): (r: (Ui, World))
    requires ValidEvent(e, |u.rows|)
    ensures r.0.root == u.root
    ensures |r.0.rows| == |u.rows|
    ensures forall j :: 0 <= j < |u.rows| ==> r.0.rows[j].name == u.rows[j].name
    ensures r.1.player.Some? <==> w.player.Some?
    ensures w.player.Some? ==> SameClasses(w.player.value.entries, r.1.player.value.entries)
    ensures !e.EditSearch? ==> r.0.search == u.search
    ensures !(e.ClickApply? || e.ClickApplyAll?) ==> r.1 == w
  {
    match e
    case EditText(i, t) => (u.(rows := u.rows[i := SetText(u.rows[i], t)]), w)
    case EditSearch(q) => (u.(search := q, rows := FilterRows(u.rows, q)), w)
    case ClickApply(i) =>
      (match ApplyRow(u.rows[i], w)
       case Wrote(row, w') => (u.(rows := u.rows[i := row]), w')
       case _ => (u, w))
    case ClickMaxAll => (u.(rows := MaxAll(u.rows)), w)
    case ClickZeroAll => (u.(rows := ZeroAll(u.rows)), w)
    case ClickResetAll => (u.(rows := ResetAll(u.rows)), w)
    case ClickApplyAll =>
      var res := ApplyAll(u.rows, w);
      (u.(rows := res.0), res.1)
  }

  /** A run of events, one after the other. */
  function HandleAll(u: Ui, w: World, evs: seq<Event>): (r: (Ui, World))
    requires forall k :: 0 <= k < |evs| ==> ValidEvent(evs[k], |u.rows|)
    ensures r.0.root == u.root
    ensures |r.0.rows| == |u.rows|
    ensures forall j :: 0 <= j < |u.rows| ==> r.0.rows[j].name == u.rows[j].name
    ensures r.1.player.Some? <==> w.player.Some?
    decreases |evs|
  {
    if evs == [] then (u, w)
    else
      var s := Handle(u, w, evs[0]);
      HandleAll(s.0, s.1, evs[1..])
  }

  // ---------------------------------------------------------------------------
  // The window invariant

  /** What holds of a built window's rows between events: every name is formattable and
      distinct, every highlight agrees with its field, visibility is the search box's
      verdict, and each row's applied level is the player's level for that name. */
  predicate Coherent(u: Ui, w: World) {
    && AllPretty(u.rows)
    && DistinctNames(u.rows)
    && (forall j :: 0 <= j < |u.rows| ==> Consistent(u.rows[j]))
    && (forall j :: 0 <= j < |u.rows| ==> u.rows[j].visible == Shown(u.rows[j].name, u.search))
    && (w.player.Some? ==> Synced(u.rows, w.player.value.entries))
  }

  /** Building over a player whose class names are unique yields a coherent window with
      nothing pending, whether or not listing threw. */
  lemma BuildCoherent(w: World)
    requires w.player.Some? ==> UniqueNames(w.player.value.entries)
    ensures var r := Build(Initial, w);
      && Coherent(r.0, w)
      && forall j :: 0 <= j < |r.0.rows| ==> !IsDirty(r.0.rows[j])
  {
    var r := Build(Initial, w);
    if w.player.Some? {
      var es := w.player.value.entries;
      var ps := CraftingPositions(es, 0);
      RefreshListsCraftingSkills(w, []);
      RefreshSynced(w, []);
      forall j | 0 <= j < |r.0.rows|
        ensures Consistent(r.0.rows[j]) && !IsDirty(r.0.rows[j])
      {
        var e := es[ps[j]];
        assert r.0.rows[j].(visible := true) == RowFor(e);
        FreshRowClean(e.cls.value.name, e.level, e.cls.value.maxLevel);
      }
    }
  }

  /** A freshly built window has nothing pending: clicking Apply All right away changes
      neither the rows nor the host, also when listing threw. */
  lemma BuildThenApplyAllIsNoop(w: World)
    ensures var rows := Build(Initial, w).0.rows; ApplyAll(rows, w) == (rows, w)
  {
    var rows := Build(Initial, w).0.rows;
    if w.player.Some? {
      var es := w.player.value.entries;
      var ps := CraftingPositions(es, 0);
      RefreshListsCraftingSkills(w, []);
      forall j | 0 <= j < |rows|
        ensures rows[j].text == ToString(rows[j].current)
      {
        assert rows[j].(visible := true) == RowFor(es[ps[j]]);
      }
    }
    ApplyAllFromSkipsClean(rows, w, 0);
  }

  /** Every widget event keeps the window coherent. */
  lemma HandleKeepsCoherent(u: Ui, w: World, e: Event)
    requires ValidEvent(e, |u.rows|) && Coherent(u, w)
    ensures var r := Handle(u, w, e); Coherent(r.0, r.1)
  {
    var r := Handle(u, w, e);
    match e
    case EditText(i, t) =>
      TextOnlyKeepsCoherent(u, r.0.rows, w);
    case EditSearch(q) =>
      FilterKeepsCoherent(u, q);
    case ClickApply(i) =>
      ApplyClickKeepsCoherent(u, w, i);
    case ClickMaxAll =>
      TextOnlyKeepsCoherent(u, r.0.rows, w);
    case ClickZeroAll =>
      TextOnlyKeepsCoherent(u, r.0.rows, w);
    case ClickResetAll =>
      TextOnlyKeepsCoherent(u, r.0.rows, w);
    case ClickApplyAll =>
      ApplyAllKeepsCoherent(u, w);
  }

  lemma ApplyClickKeepsCoherent(u: Ui, w: World, i: nat)
    requires i < |u.rows| && Coherent(u, w)
    ensures var r := Handle(u, w, ClickApply(i)); Coherent(r.0, r.1)
  {
    if ApplyRow(u.rows[i], w).Wrote? {
      ApplyRowKeepsSynced(u.rows, w, i);
      AppliedRowClean(u.rows[i], w);
    }
  }

  /** Rewriting fields and highlights, and nothing else, keeps a window coherent as long
      as the new highlights agree with the new fields. */
  lemma TextOnlyKeepsCoherent(u: Ui, rows: seq<Row>, w: World)
    requires Coherent(u, w) && |rows| == |u.rows|
    requires forall j :: 0 <= j < |rows| ==>
      rows[j].(text := u.rows[j].text, tint := u.rows[j].tint, caption := u.rows[j].caption) == u.rows[j]
    requires forall j :: 0 <= j < |rows| ==> Consistent(rows[j])
    ensures Coherent(u.(rows := rows), w)
  {
  }

  lemma FilterKeepsCoherent(u: Ui, q: string)
    requires AllPretty(u.rows) && DistinctNames(u.rows)
    requires forall j :: 0 <= j < |u.rows| ==> Consistent(u.rows[j])
    ensures var v := u.(search := q, rows := FilterRows(u.rows, q));
      && AllPretty(v.rows) && DistinctNames(v.rows)
      && (forall j :: 0 <= j < |v.rows| ==> Consistent(v.rows[j]))
      && (forall j :: 0 <= j < |v.rows| ==> v.rows[j].visible == Shown(v.rows[j].name, q))
      && (forall es :: Synced(u.rows, es) ==> Synced(v.rows, es))
  {
    var rows := FilterRows(u.rows, q);
    assert forall j :: 0 <= j < |rows| ==> rows[j].(visible := u.rows[j].visible) == u.rows[j];
  }

  lemma ApplyAllKeepsCoherent(u: Ui, w: World)
    requires Coherent(u, w)
    ensures var res := ApplyAll(u.rows, w); Coherent(u.(rows := res.0), res.1)
  {
    var res := ApplyAll(u.rows, w);
    forall j | 0 <= j < |u.rows|
      ensures Consistent(res.0[j])
    {
      if res.0[j] != u.rows[j] {
        ParseToString(res.0[j].current);
      }
    }
    if w.player.Some? {
      ApplyAllKeepsSynced(u.rows, w);
    }
  }

  /** Coherence survives any run of events. */
  lemma {:induction false} HandleAllKeepsCoherent(u: Ui, w: World, evs: seq<Event>)
    requires forall k :: 0 <= k < |evs| ==> ValidEvent(evs[k], |u.rows|)
    requires Coherent(u, w)
    ensures var r := HandleAll(u, w, evs); Coherent(r.0, r.1)
    decreases |evs|
  {
    if evs != [] {
      var s := Handle(u, w, evs[0]);
      HandleKeepsCoherent(u, w, evs[0]);
      HandleAllKeepsCoherent(s.0, s.1, evs[1..]);
    }
  }

  /** Clicking Apply on a row whose field does not hold an integer changes nothing. */
  lemma ApplyUnparseableIsNoop(u: Ui, w: World, i: nat)
    requires i < |u.rows| && TryParse(u.rows[i].text).None?
    ensures Handle(u, w, ClickApply(i)) == (u, w)
  {
  }

  /** When the rows agree with the player and their names are distinct, clicking Apply writes
      exactly the clicked row's level to the player, leaving every other row and every other
      row's progression value alone. */
  lemma ApplyWritesOneSkill(u: Ui, w: World, i: nat)
    requires i < |u.rows| && w.player.Some?
    requires Synced(u.rows, w.player.value.entries) && DistinctNames(u.rows)
    requires TryParse(u.rows[i].text).Some?
    ensures var r := Handle(u, w, ClickApply(i));
      var v := Clamp(TryParse(u.rows[i].text).value, 0, u.rows[i].max);
      && r.1.player.Some?
      && LevelOf(r.1.player.value.entries, u.rows[i].name) == Some(v)
      && r.0.rows[i].current == v && !IsDirty(r.0.rows[i])
      && forall j :: 0 <= j < |u.rows| && j != i ==>
           r.0.rows[j] == u.rows[j] &&
           LevelOf(r.1.player.value.entries, u.rows[j].name) == LevelOf(w.player.value.entries, u.rows[j].name)
  {
    assert LevelOf(w.player.value.entries, u.rows[i].name).Some?;
    ApplyRowKeepsSynced(u.rows, w, i);
  }
}

=== FILE: rows.dfy ===
/** One editor row: a crafting skill's last applied level, its max, the pending text
    of its number field, its visibility and its dirty highlighting. */
module Rows {
  import opened Wrappers
  import opened Numbers

  /** The row background: neutral, or tinted by the direction of the pending change. */
  datatype Tint = Neutral | Higher | Lower

  const ApplyLabel: string := "Apply"
  const DirtyLabel: string := "Apply*"

  datatype Row = Row(
    name: string,      // the progression class name the row edits
    current: int32,    // the level last loaded or applied
    max: int32,        // the class's max level
    text: string,      // the number field's pending text
    visible: bool,     // whether the row's game object is active
    tint: Tint,        // the background colour
    caption: string)   // the Apply button's caption

  /** The pending text is a number other than the applied level. */
  predicate IsDirty(r: Row) {
    TryParse(r.text).Some? && TryParse(r.text).value != r.current
  }

  /** The highlighting agrees with the pending text whenever that text is a number. */
  predicate Consistent(r: Row) {
    TryParse(r.text).Some? ==>
      var v := TryParse(r.text).value;
      && (r.caption == DirtyLabel <==> v != r.current)
      && (r.caption == ApplyLabel <==> v == r.current)
      && (r.tint == Higher <==> v > r.current)
      && (r.tint == Lower <==> v < r.current)
  }

  /** A consistent row is neutral and captioned "Apply" exactly when it is clean. */
  lemma ConsistentClean(r: Row)
    requires Consistent(r) && TryParse(r.text).Some?
    ensures r.tint == Neutral <==> !IsDirty(r)
    ensures r.caption == ApplyLabel <==> !IsDirty(r)
  {
  }

  /** UpdateDelta: recompute tint and caption from the pending text; an unparseable
      text leaves the previous highlighting in place. */
  function UpdateDelta(r: Row): (u: Row)
    ensures u.(tint := r.tint, caption := r.caption) == r
    ensures TryParse(r.text).None? ==> u == r
    ensures Consistent(u)
  {
    match TryParse(r.text)
    case None => r
    case Some(v) =>
      var dirty := v != r.current;
      r.(tint := if !dirty then Neutral else if v > r.current then Higher else Lower,
         caption := if dirty then DirtyLabel else ApplyLabel)
  }

  /** Recomputing an already consistent row changes nothing, so it does not matter
      whether the field's change listener fires when a text is rewritten unchanged. */
  lemma UpdateDeltaFixesConsistent(r: Row)
    requires Consistent(r)
    ensures UpdateDelta(r) == r
  {
  }

  /** Writing `input.text`: the field's change listener runs UpdateDelta. */
  function SetText(r: Row, t: string): (u: Row)
    ensures u.text == t
    ensures u.(text := r.text, tint := r.tint, caption := r.caption) == r
    ensures Consistent(u)
    ensures TryParse(t).None? ==> u == r.(text := t)
  {
    UpdateDelta(r.(text := t))
  }

  /** The row for a freshly listed entry: visible, neutral, its field holding the level. */
  function FreshRow(name: string, level: int32, max: int32): (r: Row)
    ensures r.name == name && r.current == level && r.max == max && r.visible
    ensures r.text == ToString(level) && TryParse(r.text) == Some(level)
    ensures r.tint == Neutral && r.caption == ApplyLabel
  {
    ParseToString(level);
    Row(name, level, max, ToString(level), true, Neutral, ApplyLabel)
  }

  /** A fresh row's field reads back as its level, so it starts clean and consistent. */
  lemma FreshRowClean(name: string, level: int32, max: int32)
    ensures TryParse(FreshRow(name, level, max).text) == Some(level)
    ensures Consistent(FreshRow(name, level, max)) && !IsDirty(FreshRow(name, level, max))
  {
    ParseToString(level);
  }
}

=== FILE: wrappers.dfy ===
/** Failure-carrying datatypes shared by the whole model. */
module Wrappers {

  /** A value that may be absent: the model's stand-in for a C# null or a failed TryParse. */
  datatype Option<+T> = None | Some(value: T)

  /** A computation that either produced a value or raised an exception. */
  datatype Result<+T, +E> = Success(value: T) | Failure(error: E)

  /** The .NET exceptions the editor can raise on its own code paths. */
  datatype Fault =
    | NullReference     // dereferencing a null player or a missing progression value
    | IndexOutOfRange   // indexing the first character of an empty string
}
